=== FILE: README.md ===
# Badge overlay geometry and interaction, in Dafny

The page composites a fixed-aspect badge over an uploaded photo. The user can drag the badge or nudge it with the arrow keys, then download the result. This project models the badge's geometry and the page's interaction state machine. Everything else in `script.js` is DOM, image-loading, drawing or download plumbing.

- `geometry.dfy` (module `Geometry`) covers:
  - `Math.round` as `Round`;
  - the width-dependent padding;
  - the first placement of the badge;
  - the per-axis clamp of the badge's origin;
  - the inclusive hit test;
  - the map from client coordinates to the canvas's logical pixels, and its inverse.
- `render.dfy` (module `RenderSurface`) covers the size of the high-density backing store.
- `interaction.dfy` (module `Interaction`) covers the rest:
  - the script's global state (photo element, badge rectangle, drag flag and offset) as an immutable `Session`;
  - every handler as a pure transition `Step`, which reports whether the handler redrew;
  - `Run` over a sequence of events.

Badge coordinates are integers, because the script only ever stores rounded values or integer shifts of them. Pointer coordinates, ratios and the aspect are `real`. Arithmetic is exact: no IEEE-754 rounding.

## Behaviour of the script worth knowing

- **Inverted clamp range.** When the badge is wider than the padded width (`W - pad - w < pad`), one might expect the badge to be pinned to the lower bound `pad`. The script raises each coordinate to the lower bound and then caps it at the upper bound, so it pins to the upper bound `W - pad - w`, and `ClampAxis` and `Clamp` do the same.
- **Failed decode.** One might expect a failed photo decode to leave the prior state untouched. The script assigns the new photo element to `headshot` before awaiting its decode. From then on, `canvasWidth()`/`canvasHeight()` read that element's natural size, which is 0 x 0 until it decodes, and stays 0 x 0 if decoding fails. The handlers stay live meanwhile. This is the `UploadStarted` event. `NudgeBeforeDecodePinsBadgeOffCanvas` shows that an arrow key then moves the badge to (-12 - w, -12 - h).
- **Positive size.** One might expect the badge always to have `w, h > 0`. The script does not ensure it. For example, a photo at most twice the padding tall gets `h = H - 2*pad <= 0` from the fit-by-height branch, and a photo 1 pixel wide gets `w = Round(0.28) = 0`. More generally, a size is non-positive whenever one of its rounding steps yields 0 or less. The model claims positivity nowhere.
- **Drag survives upload.** A completed upload does not end a drag in progress (`OnUploadDecoded` keeps `dragging`).

## Model

| member | source | states |
|---|---|---|
| `Geometry.Round` | script.js:155-156 | `Math.round`: the result is the nearest integer, with halves going up for negative values too |
| `Geometry.RoundShift` | script.js:155-156 | rounding an integer returns it, and rounding commutes with integer shifts |
| `Geometry.RoundMonotone` | script.js:101-103 | rounding never reverses order |
| `Geometry.RoundHalves` | script.js:155-156 | Math.round(-2.5) = -2, Math.round(2.5) = 3, Math.round(-2.6) = -3 |
| `Geometry.Padding` | script.js:101-103 | the padding is never below BASE_PADDING_PX = 12 |
| `Geometry.PaddingMonotone` | script.js:101-103 | the padding never decreases as the canvas widens |
| `Geometry.PaddingRegimes` | script.js:101-103 | the padding is exactly 12 up to width 833; from 834 on it exceeds 12 and is 1.5% of the width, to the nearest pixel |
| `Geometry.HeightForWidth` | script.js:82 | the height is the nearest integer to the width times the badge's aspect natH/natW |
| `Geometry.WidthForHeight` | script.js:88 | the width is the nearest integer to the height divided by the badge's aspect |
| `Geometry.CentredY` | script.js:93 | the top margin equals the bottom margin or exceeds it by one pixel |
| `Geometry.InitialOverlay` | script.js:75-99 | x is the padding; h <= H - 2*pad; the badge is vertically centred (top margin equals the bottom margin or exceeds it by 1); if the height fits, w = round(0.28 W) and h is the nearest integer to w*natH/natW; otherwise h = H - 2*pad and w is the nearest integer to h/aspect |
| `Geometry.FitByHeightIsNarrower` | script.js:84-89 | the fit-by-height branch never makes the badge wider than round(0.28 W) |
| `Geometry.InitialOverlayInBounds` | script.js:75-99 | for canvases at least 36 wide, the first placement already lies within the clamp bounds on both axes |
| `Geometry.InitialOverlayExample` | script.js:75-103 | a 1000x800 canvas with a 280x100 badge gives padding 15 and the rect {x:15, y:350, w:280, h:100} |
| `Geometry.ClampAxis` | script.js:134-135 | the result never exceeds hi; with lo <= hi it lies in [lo, hi]; a value in range is kept; a value below goes to lo and one above goes to hi; an inverted range pins to hi |
| `Geometry.ClampAxisNearest` | script.js:134-135 | the clamped value is the point of a non-empty range nearest to the input |
| `Geometry.ClampAxisFixedIff` | script.js:134-135 | clamping leaves a value unchanged exactly when it is in range or equals the upper bound |
| `Geometry.Clamp` | script.js:127-136 | w and h never change; when disabled nothing changes; when enabled each axis is clamped to [pad, size - pad - extent] |
| `Geometry.ClampEstablishesBounds` | script.js:127-136 | when the badge fits between the paddings, the clamped badge is in bounds on both axes |
| `Geometry.ClampIdempotent` | script.js:127-136 | clamping twice equals clamping once, whether enabled or not and including inverted ranges |
| `Geometry.ClampKeepsInBounds` | script.js:127-136 | an in-bounds badge is left unchanged |
| `Geometry.HitOverlay` | script.js:106-113 | a hit is exactly a point whose offset from the badge's origin lies in [0, w] x [0, h], edges included |
| `Geometry.HitEdgesInclusive` | script.js:106-113 | every point on each of the four edges, corners included, is a hit |
| `Geometry.HitTranslationInvariant` | script.js:106-113 | shifting the badge and the point by the same amount does not change the hit |
| `Geometry.CanvasPoint` | script.js:116-125 | the canvas point lies at the same fraction of the canvas's logical width (height) as the client point lies of the box's width (height), measured from left (top) |
| `Geometry.CanvasPointCorners` | script.js:116-125 | the box's left/top maps to 0 and its right/bottom maps to the canvas width/height |
| `Geometry.CanvasPointAffine` | script.js:116-125 | a client displacement maps to that displacement times canvasWidth/rect.width (resp. height), wherever it starts |
| `Geometry.CanvasPointUnscaled` | script.js:116-125 | when the element is laid out at its logical size, the map is the translation by (-left, -top) |
| `Geometry.CanvasPointRoundTrip` | script.js:116-125 | the map and its inverse `ClientPoint` undo each other, in both orders |
| `RenderSurface.EffectiveDpr` | script.js:34 | a non-zero reported ratio is used as is; a zero (falsy) one falls back to 1 |
| `RenderSurface.BackingSize` | script.js:40-41 | when the logical size times the ratio is at least 1/2, the side is the nearest integer to it; below that, the side is 1 |
| `RenderSurface.BackingSizeWholeRatios` | script.js:34-41 | at the fallback ratio 1 the backing store has the logical size; at ratio 2 it is twice that |
| `RenderSurface.BackingSizeMonotone` | script.js:40-41 | a larger logical size never gets a smaller backing store |
| `Interaction.CanvasW` | script.js:72 | the logical width is the photo element's natural width once one exists, the canvas element's own width before |
| `Interaction.CanvasH` | script.js:73 | the logical height is the photo element's natural height once one exists, the canvas element's own height before |
| `Interaction.OnPointerDown` | script.js:139-150 | with no photo, or outside the badge, nothing changes; on the badge a drag starts with offset = point - origin, which lies within [0, w] x [0, h]; the badge never moves |
| `Interaction.DragTarget` | script.js:154-157 | the drag target keeps the badge's size, and each coordinate is the rounded pointer minus grab offset, clamped to [pad, size - pad - extent] |
| `Interaction.OnPointerMove` | script.js:152-160 | outside a drag nothing changes and nothing is redrawn; during one only the badge moves, to the drag target, and the canvas is redrawn (a photo element exists); w and h are kept |
| `Interaction.EndDrag` | script.js:162-171 | pointer-up/cancel/leave always ends in not-dragging and changes nothing else |
| `Interaction.NudgeTarget` | script.js:176-181 | ArrowLeft/Right/Up/Down shift x/y by -step/+step/-step/+step (1, or 8 with Shift) before clamping; other keys shift nothing; the size is kept |
| `Interaction.OnKeyDown` | script.js:174-187 | with a photo, an arrow key clamps the shifted badge and redraws; other keys, or no photo, change nothing; the drag state and the size are never touched |
| `Interaction.OnUploadDecoded` | script.js:194-207 | after a completed upload the decoded photo is the page's photo element, so the logical canvas size is its natural size; each backing-store side is `BackingSize` of the photo side at the effective pixel ratio; the badge is the fresh `InitialOverlay` for the photo and badge sizes, and the drag flag and offsets are kept |
| `Interaction.Step` | script.js:139-207 | only an upload changes the badge's size; no event starts a drag without a photo element; every change of the badge rectangle comes with a redraw; only moves, nudges and uploads redraw; pointer-down is the grab handler and neither moves the badge nor redraws; pointer-move is the drag handler; pointer-up, -cancel and -leave end the drag and change nothing else; with a photo element an arrow key moves the badge to the clamped nudge target and redraws, while any other key, or any key without a photo element, changes nothing; an upload start swaps in a 0 x 0 photo element and touches nothing else; a completed upload installs the decoded photo, places the badge afresh, keeps the drag flag and redraws |
| `Interaction.RunKeepsInvariant` | script.js:139-171 | no sequence of events reaches a drag without a photo element |
| `Interaction.RunKeepsSize` | script.js:139-187 | no sequence of events without a completed upload changes w or h |
| `Interaction.DragFollowsLastPointer` | script.js:152-160 | after any non-empty series of moves the badge is where the last move alone puts it, and the drag and its offset are unchanged |
| `Interaction.DragMoveRigid` | script.js:152-160 | when the target is within bounds, the badge origin is pointer minus offset, to the nearest pixel |
| `Interaction.DragMoveNearest` | script.js:155-157 | when the badge fits between the paddings, each coordinate after a drag move is the in-bounds position nearest the rounded pointer minus grab offset |
| `Interaction.DragMoveInBounds` | script.js:152-160 | when the badge fits between the paddings, a drag move leaves it in bounds |
| `Interaction.UploadPlacesBadgeInBounds` | script.js:202-205 | after an upload on a photo at least 36 wide, the badge lies within the clamp bounds and clamping leaves it where it is |
| `Interaction.NudgeLeftRightReturns` | script.js:174-187 | away from the left padding, ArrowLeft then ArrowRight restores an in-bounds badge exactly |
| `Interaction.NudgeBeforeDecodePinsBadgeOffCanvas` | script.js:196-198 | after a new photo element replaces the old one and before it decodes, an arrow key moves the badge to (-12 - w, -12 - h) |
| `Interaction.DragExample` | script.js:139-160 | after the 1000x800 upload, a grab at (100, 380) and a move to (300, 380) put the badge at (215, 350) with its size unchanged |

## Left out

- DOM element lookups, CSS class toggling and `preventDefault` (script.js:1-5, 146, 148, 159, 165, 185): UI side effects with nothing to state about them.
- Pointer capture, its release and the swallowed release error (script.js:147, 166): browser capture semantics, treated as no-ops. `pointerId` is dropped from the events for the same reason.
- Image loading (`whenLoaded`, `new Image`, `crossOrigin`/`src`, `FileReader`; script.js:14-21, 51-57, 190-213): asynchronous host I/O. It is reduced to two events. `UploadStarted` is the moment the new photo element replaces the old one. `UploadDecoded` is the moment both images have loaded. The session between a decoded photo and a badge graphic that is still loading or never loads is not modelled. Neither is a change event without a file.
- `drawAll` (script.js:59-70) and the transform and style assignments in `setupHiDPI` (script.js:44-48): foreign rendering calls. A transition only records whether it redrew.
- Download through `toDataURL` and the anchor click (script.js:216-225): export I/O.
- IEEE-754 behaviour (for example, `1000 * 0.28` not being exactly 280 in binary): all arithmetic is exact over `real`.
- `window.devicePixelRatio` being `undefined` or `NaN`: `EffectiveDpr` takes the reported ratio as a real, with 0 standing for every falsy value.
- `Geometry.CanvasPoint`: requires a bounding box of positive width and height. A pointer event only reaches a laid-out canvas, and a zero-size box would divide by zero.
- `Geometry.InitialOverlay`: requires a badge graphic of positive natural size. The script only places the badge after that graphic has loaded.

=== FILE: geometry.dfy ===
/**
 The geometry engine of the badge compositor: rounding as the page's script
 rounds, the padding that grows with the photo's width, the initial placement
 of the badge, clamping of its origin to the padded bounds, the inclusive hit
 test and the mapping from client (viewport) coordinates to the canvas's
 logical pixel space.

 Coordinates of the badge rectangle are integers (every assignment to them in
 the script is rounded or is integer arithmetic on rounded values); pointer
 coordinates and ratios are reals. Floating-point rounding error is not
 modelled: arithmetic is exact over `real`.
 */
module Geometry {

  // Tunables of the script.
  const OverlayWidthRatio: real := 0.28
  const BasePaddingPx: int := 12
  const PaddingFactor: real := 0.015

  /** The badge rectangle, in logical pixels of the photo. */
  datatype Rect = Rect(x: int, y: int, w: int, h: int)

  /** A point in client (viewport) or logical canvas coordinates. */
  datatype Point = Point(x: real, y: real)

  /** The canvas element's bounding box as laid out in the viewport. */
  datatype Box = Box(left: real, top: real, width: real, height: real)

  function MaxReal(a: real, b: real): real {
    if a >= b then a else b
  }

  function Min(a: int, b: int): int {
    if a <= b then a else b
  }

  function Max(a: int, b: int): int {
    if a >= b then a else b
  }

  function Dist(a: int, b: int): nat {
    if a >= b then a - b else b - a
  }

  /** `n` is the integer nearest to `v`, halves going up. */
  ghost predicate NearestInt(n: int, v: real) {
    n as real - 0.5 <= v < n as real + 0.5
  }

  // ---------------------------------------------------------------------
  // Rounding

  /** JavaScript's `Math.round`: the nearest integer, halves towards +infinity. */
  function Round(v: real): (n: int)
    ensures NearestInt(n, v)
  {
    (v + 0.5).Floor
  }

  /** The nearest integer is unique. */
  lemma NearestIntUnique(m: int, n: int, v: real)
    requires NearestInt(m, v) && NearestInt(n, v)
    ensures m == n
  {
  }

  /** Rounding an integer gives it back, and rounding commutes with integer shifts. */
  lemma RoundShift(v: real, k: int)
    ensures Round(k as real) == k
    ensures Round(v + k as real) == Round(v) + k
  {
    NearestIntUnique(Round(v + k as real), Round(v) + k, v + k as real);
  }

  /** Rounding is monotone. */
  lemma RoundMonotone(a: real, b: real)
    requires a <= b
    ensures Round(a) <= Round(b)
  {
  }

  /** Math.round(-2.5) is -2 and Math.round(2.5) is 3: halves go up on both signs. */
  lemma RoundHalves()
    ensures Round(-2.5) == -2 && Round(2.5) == 3 && Round(-2.6) == -3
  {
  }

  // ---------------------------------------------------------------------
  // Padding

  /** The padding kept between the badge and the canvas edges, for a canvas `canvasW` wide. */
  function Padding(canvasW: int): (pad: int)
    ensures pad >= BasePaddingPx
  {
    Round(MaxReal(BasePaddingPx as real, canvasW as real * PaddingFactor))
  }

  /** The padding never shrinks as the canvas widens. */
  lemma PaddingMonotone(w1: int, w2: int)
    requires w1 <= w2
    ensures Padding(w1) <= Padding(w2)
  {
    RoundMonotone(MaxReal(BasePaddingPx as real, w1 as real * PaddingFactor),
                  MaxReal(BasePaddingPx as real, w2 as real * PaddingFactor));
  }

  /** Up to 833 logical pixels the padding is the base padding; from 834 on it is
      1.5% of the width, rounded. */
  lemma PaddingRegimes(canvasW: int)
    ensures canvasW <= 833 ==> Padding(canvasW) == BasePaddingPx
    ensures canvasW >= 834 ==> Padding(canvasW) > BasePaddingPx
                               && NearestInt(Padding(canvasW), canvasW as real * PaddingFactor)
  {
    if canvasW <= 833 {
      assert canvasW as real * PaddingFactor <= 12.495;
      NearestIntUnique(Padding(canvasW), 12, MaxReal(BasePaddingPx as real, canvasW as real * PaddingFactor));
    } else {
      assert canvasW as real * PaddingFactor >= 12.51;
    }
  }

  // ---------------------------------------------------------------------
  // Initial placement

  /** Height over width of the badge graphic. */
  function Aspect(natW: int, natH: int): real
    requires natW > 0
  {
    natH as real / natW as real
  }

  /** Width the badge gets from the width ratio alone. */
  function RatioWidth(canvasW: int): int {
    Round(canvasW as real * OverlayWidthRatio)
  }

  /** Whether the ratio width's aspect-preserving height fits between the vertical paddings. */
  predicate FitsByWidth(canvasW: int, canvasH: int, natW: int, natH: int)
    requires natW > 0
  {
    HeightForWidth(RatioWidth(canvasW), natW, natH) <= canvasH - 2 * Padding(canvasW)
  }

  /** The top edge that centres a badge `h` tall on a canvas `canvasH` tall:
      the top margin equals the bottom margin or exceeds it by one pixel. */
  function CentredY(canvasH: int, h: int): (y: int)
    ensures 0 <= y - (canvasH - y - h) <= 1
  {
    Round((canvasH - h) as real / 2.0)
  }

  /** Height that keeps the badge's aspect at width `w`. */
  function HeightForWidth(w: int, natW: int, natH: int): (h: int)
    requires natW > 0
    ensures NearestInt(h, w as real * Aspect(natW, natH))
  {
    Round(w as real * Aspect(natW, natH))
  }

  /** Width that keeps the badge's aspect at height `h`. */
  function WidthForHeight(h: int, natW: int, natH: int): (w: int)
    requires natW > 0 && natH > 0
    ensures NearestInt(w, h as real / Aspect(natW, natH))
  {
    Round(h as real / Aspect(natW, natH))
  }

  /** The badge's first placement on a `canvasW` x `canvasH` photo, for a badge
      graphic of natural size `natW` x `natH`: left-aligned at the padding,
      vertically centred, as wide as the width ratio says unless its height
      would not fit, in which case it is as tall as the padded height allows. */
  function InitialOverlay(canvasW: int, canvasH: int, natW: int, natH: int): (r: Rect)
    requires natW > 0 && natH > 0
    ensures r.x == Padding(canvasW)
    ensures r.h <= canvasH - 2 * Padding(canvasW)
    ensures 0 <= r.y - (canvasH - r.y - r.h) <= 1
    ensures FitsByWidth(canvasW, canvasH, natW, natH) ==>
              r.w == RatioWidth(canvasW) && NearestInt(r.h, r.w as real * Aspect(natW, natH))
    ensures !FitsByWidth(canvasW, canvasH, natW, natH) ==>
              r.h == canvasH - 2 * Padding(canvasW) && NearestInt(r.w, r.h as real / Aspect(natW, natH))
  {
    var pad := Padding(canvasW);
    var w := RatioWidth(canvasW);
    var h := HeightForWidth(w, natW, natH);
    var maxH := canvasH - 2 * pad;
    if h > maxH then
      var h' := Round(maxH as real);
      RoundShift(0.0, maxH);
      var w' := WidthForHeight(h', natW, natH);
      Rect(pad, CentredY(canvasH, h'), w', h')
    else
      Rect(pad, CentredY(canvasH, h), w, h)
  }

  /** When the height has to be fitted, the badge comes out no wider than the ratio width. */
  lemma FitByHeightIsNarrower(canvasW: int, canvasH: int, natW: int, natH: int)
    requires natW > 0 && natH > 0
    requires !FitsByWidth(canvasW, canvasH, natW, natH)
    ensures InitialOverlay(canvasW, canvasH, natW, natH).w <= RatioWidth(canvasW)
  {
    var r := InitialOverlay(canvasW, canvasH, natW, natH);
    var a := Aspect(natW, natH);
    var w0 := RatioWidth(canvasW);
    var h0 := HeightForWidth(w0, natW, natH);
    // the ratio height exceeds the fitted height by a whole pixel
    assert r.h as real + 1.0 <= h0 as real;
    assert r.h as real < w0 as real * a;
    QuotientBelow(r.h as real, w0 as real, a);
    assert NearestInt(r.w, r.h as real / a);
  }

  /** Dividing both sides of `m < w * a` by a positive `a`. */
  lemma QuotientBelow(m: real, w: real, a: real)
    requires a > 0.0 && m < w * a
    ensures m / a < w
  {
    assert m / a - w == (m - w * a) / a;
  }

  /** Once the canvas is at least 36 pixels wide the first placement already lies
      within the clamping bounds, so clamping does not move it. */
  lemma InitialOverlayInBounds(canvasW: int, canvasH: int, natW: int, natH: int)
    requires natW > 0 && natH > 0
    requires canvasW >= 36
    ensures InBounds(InitialOverlay(canvasW, canvasH, natW, natH), canvasW, canvasH)
  {
    var r := InitialOverlay(canvasW, canvasH, natW, natH);
    var pad := Padding(canvasW);
    if !FitsByWidth(canvasW, canvasH, natW, natH) {
      FitByHeightIsNarrower(canvasW, canvasH, natW, natH);
    }
    assert r.w <= RatioWidth(canvasW);
    PaddingRegimes(canvasW);
    if canvasW <= 833 {
      assert pad == 12;
    } else {
      assert pad as real <= canvasW as real * PaddingFactor + 0.5;
    }
    assert RatioWidth(canvasW) as real <= canvasW as real * OverlayWidthRatio + 0.5;
  }

  /** The example of a 1000x800 photo and a 280x100 badge: padding 15, badge at (15, 350) sized 280x100. */
  lemma InitialOverlayExample()
    ensures Padding(1000) == 15
    ensures InitialOverlay(1000, 800, 280, 100) == Rect(15, 350, 280, 100)
  {
    assert 1000 as real * PaddingFactor == 15.0;
    assert MaxReal(BasePaddingPx as real, 1000 as real * PaddingFactor) == 15.0;
    RoundShift(0.0, 15);
    assert 1000 as real * OverlayWidthRatio == 280.0;
    RoundShift(0.0, 280);
    assert RatioWidth(1000) == 280;
    assert 280 as real * Aspect(280, 100) == 100.0;
    RoundShift(0.0, 100);
    assert (800 - 100) as real / 2.0 == 350.0;
    RoundShift(0.0, 350);
  }

  // ---------------------------------------------------------------------
  // Clamping

  /** `v` raised to at least `lo`, then capped at `hi`: confined to `[lo, hi]`,
      and pinned to `hi` when the range is empty. */
  function ClampAxis(v: int, lo: int, hi: int): (c: int)
    ensures c <= hi
    ensures lo <= hi ==> lo <= c
    ensures lo <= v <= hi ==> c == v
    ensures v < lo <= hi ==> c == lo
    ensures hi < v ==> c == hi
    ensures hi < lo ==> c == hi
  {
    Min(Max(v, lo), hi)
  }

  /** Of all positions in a non-empty range, the clamped one is closest to the original. */
  lemma ClampAxisNearest(v: int, lo: int, hi: int, z: int)
    requires lo <= z <= hi
    ensures Dist(ClampAxis(v, lo, hi), v) <= Dist(z, v)
  {
  }

  /** Clamping leaves a coordinate alone exactly when it is in range or already at the upper bound. */
  lemma ClampAxisFixedIff(v: int, lo: int, hi: int)
    ensures ClampAxis(v, lo, hi) == v <==> (lo <= v <= hi || v == hi)
  {
  }

  /** The bounds the clamp keeps the badge's origin within. */
  predicate InBounds(r: Rect, canvasW: int, canvasH: int) {
    var pad := Padding(canvasW);
    && pad <= r.x <= canvasW - pad - r.w
    && pad <= r.y <= canvasH - pad - r.h
  }

  /** `clampOverlay`: when enabled, each coordinate of the origin is confined to
      `[pad, canvas size - pad - badge size]`; the size never changes. */
  function Clamp(r: Rect, canvasW: int, canvasH: int, enabled: bool): (c: Rect)
    ensures c.w == r.w && c.h == r.h
    ensures !enabled ==> c == r
    ensures enabled ==> c.x == ClampAxis(r.x, Padding(canvasW), canvasW - Padding(canvasW) - r.w)
    ensures enabled ==> c.y == ClampAxis(r.y, Padding(canvasW), canvasH - Padding(canvasW) - r.h)
  {
    if !enabled then r
    else
      var pad := Padding(canvasW);
      var minX := pad;
      var minY := pad;
      var maxX := canvasW - pad - r.w;
      var maxY := canvasH - pad - r.h;
      r.(x := ClampAxis(r.x, minX, maxX), y := ClampAxis(r.y, minY, maxY))
  }

  /** When the badge fits between the paddings, the clamped badge is in bounds. */
  lemma ClampEstablishesBounds(r: Rect, canvasW: int, canvasH: int)
    requires 2 * Padding(canvasW) + r.w <= canvasW
    requires 2 * Padding(canvasW) + r.h <= canvasH
    ensures InBounds(Clamp(r, canvasW, canvasH, true), canvasW, canvasH)
  {
  }

  /** Clamping twice is clamping once, inverted ranges included. */
  lemma ClampIdempotent(r: Rect, canvasW: int, canvasH: int, enabled: bool)
    ensures Clamp(Clamp(r, canvasW, canvasH, enabled), canvasW, canvasH, enabled)
            == Clamp(r, canvasW, canvasH, enabled)
  {
  }

  /** An enabled clamp leaves an in-bounds badge where it is. */
  lemma ClampKeepsInBounds(r: Rect, canvasW: int, canvasH: int)
    requires InBounds(r, canvasW, canvasH)
    ensures Clamp(r, canvasW, canvasH, true) == r
  {
  }

  // ---------------------------------------------------------------------
  // Hit test

  /** `hitOverlay`: the point lies in the badge rectangle, all four edges included. */
  function HitOverlay(r: Rect, p: Point): (hit: bool)
    ensures hit <==> (0.0 <= p.x - r.x as real <= r.w as real && 0.0 <= p.y - r.y as real <= r.h as real)
  {
    && p.x >= r.x as real
    && p.y >= r.y as real
    && p.x <= (r.x + r.w) as real
    && p.y <= (r.y + r.h) as real
  }

  /** Every point of the four edges counts as a hit: `t` runs along an edge from one corner to the next. */
  lemma HitEdgesInclusive(r: Rect, t: real)
    requires r.w >= 0 && r.h >= 0
    requires 0.0 <= t <= 1.0
    ensures HitOverlay(r, Point(r.x as real + t * r.w as real, r.y as real))
    ensures HitOverlay(r, Point(r.x as real + t * r.w as real, (r.y + r.h) as real))
    ensures HitOverlay(r, Point(r.x as real, r.y as real + t * r.h as real))
    ensures HitOverlay(r, Point((r.x + r.w) as real, r.y as real + t * r.h as real))
  {
    ScaledWithin(t, r.w as real);
    ScaledWithin(t, r.h as real);
  }

  lemma ScaledWithin(t: real, len: real)
    requires 0.0 <= t <= 1.0 && len >= 0.0
    ensures 0.0 <= t * len <= len
  {
    assert len - t * len == (1.0 - t) * len;
  }

  /** Moving the badge and the point by the same integer amount does not change the hit. */
  lemma HitTranslationInvariant(r: Rect, p: Point, dx: int, dy: int)
    ensures HitOverlay(r.(x := r.x + dx, y := r.y + dy), Point(p.x + dx as real, p.y + dy as real))
            == HitOverlay(r, p)
  {
  }

  // ---------------------------------------------------------------------
  // Pointer mapping

  /** `getCanvasPoint`: a client coordinate mapped into logical canvas pixels,
      scaling by the ratio of the logical size to the laid-out size. */
  function CanvasPoint(client: Point, box: Box, canvasW: int, canvasH: int): (p: Point)
    requires box.width > 0.0 && box.height > 0.0
    // the point sits at the same fraction of the canvas as the client point of the box
    ensures p.x * box.width == (client.x - box.left) * canvasW as real
    ensures p.y * box.height == (client.y - box.top) * canvasH as real
  {
    var scaleX := canvasW as real / box.width;
    var scaleY := canvasH as real / box.height;
    Point((client.x - box.left) * scaleX, (client.y - box.top) * scaleY)
  }

  /** The inverse map: where a logical canvas point appears in the viewport. */
  function ClientPoint(p: Point, box: Box, canvasW: int, canvasH: int): Point
    requires canvasW > 0 && canvasH > 0
  {
    Point(box.left + p.x * box.width / canvasW as real,
          box.top + p.y * box.height / canvasH as real)
  }

  /** The box's top-left corner maps to the canvas origin and its bottom-right
      corner to the canvas's logical size. */
  lemma CanvasPointCorners(box: Box, canvasW: int, canvasH: int)
    requires box.width > 0.0 && box.height > 0.0
    ensures CanvasPoint(Point(box.left, box.top), box, canvasW, canvasH) == Point(0.0, 0.0)
    ensures CanvasPoint(Point(box.left + box.width, box.top + box.height), box, canvasW, canvasH)
            == Point(canvasW as real, canvasH as real)
  {
    assert box.width * (canvasW as real / box.width) == canvasW as real;
    assert box.height * (canvasH as real / box.height) == canvasH as real;
  }

  /** The map is affine: a client displacement becomes the same displacement scaled
      by logical size over laid-out size, wherever it starts. */
  lemma CanvasPointAffine(c: Point, dx: real, dy: real, box: Box, canvasW: int, canvasH: int)
    requires box.width > 0.0 && box.height > 0.0
    ensures var p := CanvasPoint(c, box, canvasW, canvasH);
            var q := CanvasPoint(Point(c.x + dx, c.y + dy), box, canvasW, canvasH);
            q.x - p.x == dx * (canvasW as real / box.width)
            && q.y - p.y == dy * (canvasH as real / box.height)
  {
    var sx := canvasW as real / box.width;
    var sy := canvasH as real / box.height;
    assert (c.x + dx - box.left) * sx == (c.x - box.left) * sx + dx * sx;
    assert (c.y + dy - box.top) * sy == (c.y - box.top) * sy + dy * sy;
  }

  /** When the element is laid out at its logical size the map is a pure translation. */
  lemma CanvasPointUnscaled(c: Point, box: Box, canvasW: int, canvasH: int)
    requires box.width == canvasW as real && box.height == canvasH as real
    requires canvasW > 0 && canvasH > 0
    ensures CanvasPoint(c, box, canvasW, canvasH) == Point(c.x - box.left, c.y - box.top)
  {
  }

  /** Client-to-canvas followed by canvas-to-client is the identity, and so is the
      other order. */
  lemma CanvasPointRoundTrip(c: Point, p: Point, box: Box, canvasW: int, canvasH: int)
    requires box.width > 0.0 && box.height > 0.0
    requires canvasW > 0 && canvasH > 0
    ensures ClientPoint(CanvasPoint(c, box, canvasW, canvasH), box, canvasW, canvasH) == c
    ensures CanvasPoint(ClientPoint(p, box, canvasW, canvasH), box, canvasW, canvasH) == p
  {
    var W := canvasW as real;
    var H := canvasH as real;
    var q := CanvasPoint(c, box, canvasW, canvasH);
    ScaleCancels(c.x - box.left, W, box.width);
    ScaleCancels(c.y - box.top, H, box.height);
    assert q.x * box.width / W == c.x - box.left;
    assert q.y * box.height / H == c.y - box.top;
    var d := ClientPoint(p, box, canvasW, canvasH);
    ScaleCancels(p.x, box.width, W);
    ScaleCancels(p.y, box.height, H);
    assert d.x - box.left == p.x * box.width / W;
    assert d.y - box.top == p.y * box.height / H;
  }

  lemma ScaleCancels(v: real, a: real, b: real)
    requires a > 0.0 && b > 0.0
    ensures v * (a / b) * b / a == v
    ensures v * b / a * (a / b) == v
  {
    assert (a / b) * b == a;
    assert v * (a / b) * b == v * a;
    assert (b / a) * a == b;
    assert v * b / a * (a / b) == v * (b / a) * (a / b);
    assert (b / a) * (a / b) == 1.0;
  }
}

=== FILE: interaction.dfy ===
/**
 The interaction controller: the script's module-level state (the loaded photo,
 the badge rectangle, the drag flag and drag offset) as an immutable session,
 and each event handler as a pure transition from one session to the next.
 Pointer capture, CSS class toggling, `preventDefault` and drawing are host
 side effects; a transition only reports whether it asked for a redraw.
 */
module Interaction {
  import opened Geometry
  import opened RenderSurface

  // Tunables of the script.
  const ClampWithinBounds: bool := true
  const NudgeStep: int := 1
  const NudgeStepFast: int := 8

  datatype Option<T> = None | Some(value: T)

  /** A photo as the page holds it: its natural size, 0 x 0 until it has decoded. */
  datatype Image = Image(naturalW: int, naturalH: int)

  /** Everything the handlers read or write. `backingW`/`backingH` is the canvas
      element's own pixel size, which stands in for the logical size while no
      photo exists. */
  datatype Session = Session(
    headshot: Option<Image>,
    backingW: int,
    backingH: int,
    overlay: Rect,
    dragging: bool,
    dragOffsetX: real,
    dragOffsetY: real)

  /** The inputs the page reacts to. A pointer event carries its client
      coordinates and the canvas's bounding box at that moment. `UploadStarted`
      is the moment a chosen file has been read and a new photo element has
      replaced the old one; `UploadDecoded` is the moment both the photo and
      the badge graphic have finished loading. */
  datatype Event =
    | PointerDown(client: Point, box: Box)
    | PointerMove(client: Point, box: Box)
    | PointerUp
    | PointerCancel
    | PointerLeave
    | KeyDown(key: string, shift: bool)
    | UploadStarted
    | UploadDecoded(photoW: int, photoH: int, overlayW: int, overlayH: int, dpr: real)

  /** What a handler leaves behind: the next session and whether it redrew the canvas. */
  datatype Outcome = Outcome(next: Session, redrawn: bool)

  /** Events as the host can deliver them: a pointer event hits a laid-out
      (non-empty) canvas, and a loaded badge graphic has a positive natural size. */
  predicate WellFormed(e: Event) {
    match e
    case PointerDown(_, box) => box.width > 0.0 && box.height > 0.0
    case PointerMove(_, box) => box.width > 0.0 && box.height > 0.0
    case UploadDecoded(_, _, ow, oh, _) => ow > 0 && oh > 0
    case _ => true
  }

  /** The page before any upload: no photo, a zero badge, no drag. */
  function Initial(backingW: int, backingH: int): Session {
    Session(None, backingW, backingH, Rect(0, 0, 0, 0), false, 0.0, 0.0)
  }

  /** A drag is only ever in progress while a photo element exists. */
  predicate Inv(s: Session) {
    s.dragging ==> s.headshot.Some?
  }

  /** `canvasWidth()`: the photo's natural width once a photo element exists,
      the canvas element's own width before. */
  function CanvasW(s: Session): (w: int)
    ensures s.headshot.Some? ==> w == s.headshot.value.naturalW
    ensures s.headshot.None? ==> w == s.backingW
  {
    if s.headshot.Some? then s.headshot.value.naturalW else s.backingW
  }

  /** `canvasHeight()`, likewise. */
  function CanvasH(s: Session): (h: int)
    ensures s.headshot.Some? ==> h == s.headshot.value.naturalH
    ensures s.headshot.None? ==> h == s.backingH
  {
    if s.headshot.Some? then s.headshot.value.naturalH else s.backingH
  }

  function ClampIn(s: Session, r: Rect): Rect {
    Clamp(r, CanvasW(s), CanvasH(s), ClampWithinBounds)
  }

  // ---------------------------------------------------------------------
  // Pointer handlers

  /** Pointer-down: with a photo present and the point on the badge, a drag
      starts whose offset is the point relative to the badge's origin. */
  function OnPointerDown(s: Session, client: Point, box: Box): (s': Session)
    requires box.width > 0.0 && box.height > 0.0
    ensures s'.overlay == s.overlay && s'.headshot == s.headshot
    ensures s.headshot.None? ==> s' == s
    ensures var p := CanvasPoint(client, box, CanvasW(s), CanvasH(s));
            && (s.headshot.Some? && !HitOverlay(s.overlay, p) ==> s' == s)
            && (s.headshot.Some? && HitOverlay(s.overlay, p) ==>
                  && s'.dragging
                  && s'.dragOffsetX == p.x - s.overlay.x as real
                  && s'.dragOffsetY == p.y - s.overlay.y as real
                  // the grab point lies within the badge
                  && 0.0 <= s'.dragOffsetX <= s.overlay.w as real
                  && 0.0 <= s'.dragOffsetY <= s.overlay.h as real)
  {
    if s.headshot.None? then s
    else
      var p := CanvasPoint(client, box, CanvasW(s), CanvasH(s));
      if HitOverlay(s.overlay, p) then
        s.(dragging := true,
           dragOffsetX := p.x - s.overlay.x as real,
           dragOffsetY := p.y - s.overlay.y as real)
      else s
  }

  /** Where a drag move puts the badge: the pointer minus the grab offset,
      rounded, then clamped. */
  function DragTarget(s: Session, client: Point, box: Box): (r: Rect)
    requires box.width > 0.0 && box.height > 0.0
    ensures r.w == s.overlay.w && r.h == s.overlay.h
    ensures var p := CanvasPoint(client, box, CanvasW(s), CanvasH(s));
            var pad := Padding(CanvasW(s));
            && r.x == ClampAxis(Round(p.x - s.dragOffsetX), pad, CanvasW(s) - pad - r.w)
            && r.y == ClampAxis(Round(p.y - s.dragOffsetY), pad, CanvasH(s) - pad - r.h)
  {
    var p := CanvasPoint(client, box, CanvasW(s), CanvasH(s));
    ClampIn(s, s.overlay.(x := Round(p.x - s.dragOffsetX), y := Round(p.y - s.dragOffsetY)))
  }

  /** Pointer-move: outside a drag nothing happens; during one the badge goes
      to the drag target and the canvas is redrawn. */
  function OnPointerMove(s: Session, client: Point, box: Box): (o: Outcome)
    requires box.width > 0.0 && box.height > 0.0
    ensures !s.dragging ==> o == Outcome(s, false)
    ensures s.dragging ==> o.next == s.(overlay := DragTarget(s, client, box))
    ensures s.dragging ==> o.redrawn == s.headshot.Some?
    ensures o.next.overlay.w == s.overlay.w && o.next.overlay.h == s.overlay.h
  {
    if !s.dragging then Outcome(s, false)
    else Outcome(s.(overlay := DragTarget(s, client, box)), s.headshot.Some?)
  }

  /** `endDrag` (pointer-up, -cancel and -leave): the drag is over; nothing else changes. */
  function EndDrag(s: Session): (s': Session)
    ensures !s'.dragging
    ensures s' == s.(dragging := false)
  {
    if !s.dragging then s
    else s.(dragging := false)
  }

  // ---------------------------------------------------------------------
  // Keyboard nudging

  predicate IsArrowKey(key: string) {
    key == "ArrowLeft" || key == "ArrowRight" || key == "ArrowUp" || key == "ArrowDown"
  }

  function NudgeAmount(shift: bool): int {
    if shift then NudgeStepFast else NudgeStep
  }

  /** The badge shifted by an arrow key, before clamping. */
  function NudgeTarget(r: Rect, key: string, shift: bool): (t: Rect)
    ensures t.w == r.w && t.h == r.h
    ensures key == "ArrowLeft" ==> t == r.(x := r.x - NudgeAmount(shift))
    ensures key == "ArrowRight" ==> t == r.(x := r.x + NudgeAmount(shift))
    ensures key == "ArrowUp" ==> t == r.(y := r.y - NudgeAmount(shift))
    ensures key == "ArrowDown" ==> t == r.(y := r.y + NudgeAmount(shift))
    ensures !IsArrowKey(key) ==> t == r
  {
    var step := NudgeAmount(shift);
    var x1 := if key == "ArrowLeft" then r.x - step else r.x;
    var x2 := if key == "ArrowRight" then x1 + step else x1;
    var y1 := if key == "ArrowUp" then r.y - step else r.y;
    var y2 := if key == "ArrowDown" then y1 + step else y1;
    r.(x := x2, y := y2)
  }

  /** Key-down: with a photo present an arrow key nudges the badge and redraws;
      anything else changes nothing. The drag state is never touched. */
  function OnKeyDown(s: Session, key: string, shift: bool): (o: Outcome)
    ensures s.headshot.None? || !IsArrowKey(key) ==> o == Outcome(s, false)
    ensures s.headshot.Some? && IsArrowKey(key) ==>
              o == Outcome(s.(overlay := ClampIn(s, NudgeTarget(s.overlay, key, shift))), true)
    ensures o.next.dragging == s.dragging
            && o.next.dragOffsetX == s.dragOffsetX && o.next.dragOffsetY == s.dragOffsetY
    ensures o.next.overlay.w == s.overlay.w && o.next.overlay.h == s.overlay.h
  {
    if s.headshot.None? then Outcome(s, false)
    else
      var moved := IsArrowKey(key);
      var target := NudgeTarget(s.overlay, key, shift);
      if moved then Outcome(s.(overlay := ClampIn(s, target)), true)
      else Outcome(s, false)
  }

  // ---------------------------------------------------------------------
  // Upload

  /** Both images have loaded: the canvas takes the photo's size (backing store
      scaled by the pixel ratio), the badge is placed afresh, and the canvas is
      drawn. The drag state is not reset. */
  function OnUploadDecoded(s: Session, photoW: int, photoH: int, overlayW: int, overlayH: int, dpr: real)
    : (s': Session)
    requires overlayW > 0 && overlayH > 0
    ensures s'.headshot == Some(Image(photoW, photoH))
    ensures CanvasW(s') == photoW && CanvasH(s') == photoH
    ensures s'.backingW == BackingSize(photoW, EffectiveDpr(dpr))
            && s'.backingH == BackingSize(photoH, EffectiveDpr(dpr))
    ensures s'.overlay == InitialOverlay(photoW, photoH, overlayW, overlayH)
    ensures s'.dragging == s.dragging
            && s'.dragOffsetX == s.dragOffsetX && s'.dragOffsetY == s.dragOffsetY
  {
    var d := EffectiveDpr(dpr);
    s.(headshot := Some(Image(photoW, photoH)),
       backingW := BackingSize(photoW, d),
       backingH := BackingSize(photoH, d),
       overlay := InitialOverlay(photoW, photoH, overlayW, overlayH))
  }

  // ---------------------------------------------------------------------
  // Dispatch

  /** One event handled. The badge's size only changes on an upload, a drag
      needs a photo element, and every change of the badge's position comes
      with a redraw. */
  function Step(s: Session, e: Event): (o: Outcome)
    requires WellFormed(e)
    ensures e.UploadDecoded? || (o.next.overlay.w == s.overlay.w && o.next.overlay.h == s.overlay.h)
    ensures Inv(s) ==> Inv(o.next)
    ensures Inv(s) && o.next.overlay != s.overlay ==> o.redrawn
    ensures o.redrawn ==> e.PointerMove? || e.KeyDown? || e.UploadDecoded?
    // what each event does
    ensures e.PointerDown? ==>
              && o.next == OnPointerDown(s, e.client, e.box)
              && o.next.overlay == s.overlay && !o.redrawn
    ensures e.PointerMove? ==> o == OnPointerMove(s, e.client, e.box)
    ensures e.PointerUp? || e.PointerCancel? || e.PointerLeave? ==>
              o == Outcome(s.(dragging := false), false)
    ensures e.KeyDown? && s.headshot.Some? && IsArrowKey(e.key) ==>
              && o.redrawn
              && o.next == s.(overlay := ClampIn(s, NudgeTarget(s.overlay, e.key, e.shift)))
    ensures e.KeyDown? && (s.headshot.None? || !IsArrowKey(e.key)) ==> o == Outcome(s, false)
    ensures e.UploadStarted? ==> o == Outcome(s.(headshot := Some(Image(0, 0))), false)
    ensures e.UploadDecoded? ==>
              && o.redrawn
              && o.next.headshot == Some(Image(e.photoW, e.photoH))
              && o.next.overlay == InitialOverlay(e.photoW, e.photoH, e.overlayW, e.overlayH)
              && o.next.dragging == s.dragging
  {
    match e
    case PointerDown(c, box) => Outcome(OnPointerDown(s, c, box), false)
    case PointerMove(c, box) => OnPointerMove(s, c, box)
    case PointerUp => Outcome(EndDrag(s), false)
    case PointerCancel => Outcome(EndDrag(s), false)
    case PointerLeave => Outcome(EndDrag(s), false)
    case KeyDown(key, shift) => OnKeyDown(s, key, shift)
    case UploadStarted => Outcome(s.(headshot := Some(Image(0, 0))), false)
    case UploadDecoded(pw, ph, ow, oh, dpr) => Outcome(OnUploadDecoded(s, pw, ph, ow, oh, dpr), true)
  }

  predicate AllWellFormed(evs: seq<Event>) {
    forall i :: 0 <= i < |evs| ==> WellFormed(evs[i])
  }

  /** The session after a sequence of events. */
  function Run(s: Session, evs: seq<Event>): Session
    requires AllWellFormed(evs)
    decreases |evs|
  {
    if |evs| == 0 then s
    else Run(Step(s, evs[0]).next, evs[1..])
  }

  // ---------------------------------------------------------------------
  // Properties of runs

  /** From the initial page on, no sequence of events reaches a drag without a photo element. */
  lemma {:induction false} RunKeepsInvariant(s: Session, evs: seq<Event>)
    requires AllWellFormed(evs)
    requires Inv(s)
    ensures Inv(Run(s, evs))
    decreases |evs|
  {
    if |evs| > 0 {
      RunKeepsInvariant(Step(s, evs[0]).next, evs[1..]);
    }
  }

  /** Without an upload completing, no sequence of drags and nudges changes the badge's size. */
  lemma {:induction false} RunKeepsSize(s: Session, evs: seq<Event>)
    requires AllWellFormed(evs)
    requires forall i :: 0 <= i < |evs| ==> !evs[i].UploadDecoded?
    ensures Run(s, evs).overlay.w == s.overlay.w && Run(s, evs).overlay.h == s.overlay.h
    decreases |evs|
  {
    if |evs| > 0 {
      RunKeepsSize(Step(s, evs[0]).next, evs[1..]);
    }
  }

  predicate AllMoves(evs: seq<Event>) {
    forall i :: 0 <= i < |evs| ==> evs[i].PointerMove? && WellFormed(evs[i])
  }

  /** A drag is path independent: after any non-empty sequence of moves the
      badge sits where the last move alone would put it, and the drag and its
      offset are still those captured at pointer-down. */
  lemma {:induction false} DragFollowsLastPointer(s: Session, evs: seq<Event>)
    requires s.dragging
    requires |evs| > 0 && AllMoves(evs)
    ensures AllWellFormed(evs)
    ensures var last := evs[|evs| - 1];
            var t := Run(s, evs);
            && t.dragging && t.headshot == s.headshot
            && t.dragOffsetX == s.dragOffsetX && t.dragOffsetY == s.dragOffsetY
            && t.overlay == DragTarget(s, last.client, last.box)
    decreases |evs|
  {
    var s1 := Step(s, evs[0]).next;
    assert s1 == s.(overlay := DragTarget(s, evs[0].client, evs[0].box));
    if |evs| > 1 {
      assert AllMoves(evs[1..]);
      DragFollowsLastPointer(s1, evs[1..]);
      assert evs[1..][|evs[1..]| - 1] == evs[|evs| - 1];
    }
  }

  /** Dragging is rigid: when the target stays within bounds, the badge's origin
      is the pointer minus the grab offset, to the nearest pixel. */
  lemma DragMoveRigid(s: Session, client: Point, box: Box)
    requires box.width > 0.0 && box.height > 0.0
    requires s.dragging
    requires var p := CanvasPoint(client, box, CanvasW(s), CanvasH(s));
             InBounds(s.overlay.(x := Round(p.x - s.dragOffsetX), y := Round(p.y - s.dragOffsetY)),
                      CanvasW(s), CanvasH(s))
    ensures var p := CanvasPoint(client, box, CanvasW(s), CanvasH(s));
            var r := OnPointerMove(s, client, box).next.overlay;
            NearestInt(r.x, p.x - s.dragOffsetX) && NearestInt(r.y, p.y - s.dragOffsetY)
  {
    var p := CanvasPoint(client, box, CanvasW(s), CanvasH(s));
    ClampKeepsInBounds(s.overlay.(x := Round(p.x - s.dragOffsetX), y := Round(p.y - s.dragOffsetY)),
                       CanvasW(s), CanvasH(s));
  }

  /** When the badge fits between the paddings, a drag move puts each coordinate
      of its origin at the in-bounds position nearest the rounded pointer minus
      grab offset: no in-bounds `zx` (`zy`) is closer. */
  lemma DragMoveNearest(s: Session, client: Point, box: Box, zx: int, zy: int)
    requires box.width > 0.0 && box.height > 0.0
    requires s.dragging
    requires var pad := Padding(CanvasW(s));
             pad <= zx <= CanvasW(s) - pad - s.overlay.w && pad <= zy <= CanvasH(s) - pad - s.overlay.h
    ensures var p := CanvasPoint(client, box, CanvasW(s), CanvasH(s));
            var r := OnPointerMove(s, client, box).next.overlay;
            && Dist(r.x, Round(p.x - s.dragOffsetX)) <= Dist(zx, Round(p.x - s.dragOffsetX))
            && Dist(r.y, Round(p.y - s.dragOffsetY)) <= Dist(zy, Round(p.y - s.dragOffsetY))
  {
    var p := CanvasPoint(client, box, CanvasW(s), CanvasH(s));
    var pad := Padding(CanvasW(s));
    ClampAxisNearest(Round(p.x - s.dragOffsetX), pad, CanvasW(s) - pad - s.overlay.w, zx);
    ClampAxisNearest(Round(p.y - s.dragOffsetY), pad, CanvasH(s) - pad - s.overlay.h, zy);
  }

  /** A drag move lands in bounds whenever the badge fits between the paddings. */
  lemma DragMoveInBounds(s: Session, client: Point, box: Box)
    requires box.width > 0.0 && box.height > 0.0
    requires s.dragging
    requires 2 * Padding(CanvasW(s)) + s.overlay.w <= CanvasW(s)
    requires 2 * Padding(CanvasW(s)) + s.overlay.h <= CanvasH(s)
    ensures InBounds(OnPointerMove(s, client, box).next.overlay, CanvasW(s), CanvasH(s))
  {
    var p := CanvasPoint(client, box, CanvasW(s), CanvasH(s));
    ClampEstablishesBounds(s.overlay.(x := Round(p.x - s.dragOffsetX), y := Round(p.y - s.dragOffsetY)),
                           CanvasW(s), CanvasH(s));
  }

  /** A completed upload on a photo at least 36 pixels wide leaves the badge in
      bounds, so neither the first drag nor the first nudge has to clamp it back. */
  lemma UploadPlacesBadgeInBounds(s: Session, photoW: int, photoH: int, overlayW: int, overlayH: int, dpr: real)
    requires photoW >= 36 && overlayW > 0 && overlayH > 0
    ensures var s' := OnUploadDecoded(s, photoW, photoH, overlayW, overlayH, dpr);
            && InBounds(s'.overlay, CanvasW(s'), CanvasH(s'))
            && ClampIn(s', s'.overlay) == s'.overlay
  {
    var s' := OnUploadDecoded(s, photoW, photoH, overlayW, overlayH, dpr);
    InitialOverlayInBounds(photoW, photoH, overlayW, overlayH);
    ClampKeepsInBounds(s'.overlay, photoW, photoH);
  }

  /** Away from the left padding, an arrow-left followed by an arrow-right
      (same modifier) puts an in-bounds badge back where it was. */
  lemma NudgeLeftRightReturns(s: Session, shift: bool)
    requires s.headshot.Some?
    requires InBounds(s.overlay, CanvasW(s), CanvasH(s))
    requires s.overlay.x - NudgeAmount(shift) >= Padding(CanvasW(s))
    ensures OnKeyDown(OnKeyDown(s, "ArrowLeft", shift).next, "ArrowRight", shift).next == s
  {
    var s1 := OnKeyDown(s, "ArrowLeft", shift).next;
    assert s1 == s.(overlay := s.overlay.(x := s.overlay.x - NudgeAmount(shift)));
    ClampKeepsInBounds(s.overlay, CanvasW(s), CanvasH(s));
  }

  /** Once a new photo element replaces the old one, the handlers see a 0 x 0
      canvas until it decodes (and for good if it never does): an arrow key then
      pins the badge above and left of the canvas, at (-12 - w, -12 - h). */
  lemma NudgeBeforeDecodePinsBadgeOffCanvas(s: Session)
    requires s.overlay.w >= 0 && s.overlay.h >= 0
    ensures var s1 := Step(s, UploadStarted).next;
            var r := OnKeyDown(s1, "ArrowLeft", false).next.overlay;
            r == s.overlay.(x := -12 - s.overlay.w, y := -12 - s.overlay.h)
  {
    PaddingRegimes(0);
  }

  /** Uploading a 1000x800 photo with a 280x100 badge, grabbing the badge at
      (100, 380) and moving the pointer to (300, 380) on an unscaled canvas
      moves the badge from (15, 350) to (215, 350). */
  lemma DragExample(backingW: int, backingH: int)
    ensures var box := Box(0.0, 0.0, 1000.0, 800.0);
            var evs := [UploadDecoded(1000, 800, 280, 100, 1.0),
                        PointerDown(Point(100.0, 380.0), box),
                        PointerMove(Point(300.0, 380.0), box)];
            AllWellFormed(evs) && Run(Initial(backingW, backingH), evs).overlay == Rect(215, 350, 280, 100)
  {
    var box := Box(0.0, 0.0, 1000.0, 800.0);
    var evs := [UploadDecoded(1000, 800, 280, 100, 1.0),
                PointerDown(Point(100.0, 380.0), box),
                PointerMove(Point(300.0, 380.0), box)];
    assert AllWellFormed(evs);
    InitialOverlayExample();
    var s1 := Step(Initial(backingW, backingH), evs[0]).next;
    assert s1.overlay == Rect(15, 350, 280, 100);
    assert CanvasW(s1) == 1000 && CanvasH(s1) == 800;
    CanvasPointUnscaled(Point(100.0, 380.0), box, 1000, 800);
    var s2 := Step(s1, evs[1]).next;
    assert s2.dragging && s2.dragOffsetX == 85.0 && s2.dragOffsetY == 30.0;
    CanvasPointUnscaled(Point(300.0, 380.0), box, 1000, 800);
    RoundShift(0.0, 215);
    RoundShift(0.0, 350);
    var s3 := Step(s2, evs[2]).next;
    assert s3.overlay == Clamp(Rect(215, 350, 280, 100), 1000, 800, true);
    ClampKeepsInBounds(Rect(215, 350, 280, 100), 1000, 800);
    assert Run(s2, evs[2..]) == Run(s3, []);
    assert Run(s1, evs[1..]) == Run(s2, evs[2..]);
  }
}

=== FILE: render.dfy ===
/**
 The render surface's one piece of arithmetic: the size of the physical backing
 store, the logical (CSS pixel) size scaled by the device pixel ratio. The
 transform and style assignments and the drawing itself are host calls and are
 not modelled.
 */
module RenderSurface {
  import opened Geometry

  /** The device pixel ratio in use: the reported one, or 1 when the reported
      one is falsy (zero stands for every falsy value here). */
  function EffectiveDpr(reported: real): (dpr: real)
    ensures dpr != 0.0
    ensures reported != 0.0 ==> dpr == reported
    ensures reported == 0.0 ==> dpr == 1.0
  {
    if reported == 0.0 then 1.0 else reported
  }

  /** One side of the backing store: the logical length scaled by the pixel
      ratio and rounded, but never less than one pixel. */
  function BackingSize(css: int, dpr: real): (n: int)
    ensures n >= 1
    ensures css as real * dpr >= 0.5 ==> NearestInt(n, css as real * dpr)
    ensures css as real * dpr < 0.5 ==> n == 1
  {
    Max(1, Round(css as real * dpr))
  }

  /** At ratio 1 the backing store has the logical size; at ratio 2, twice it. */
  lemma BackingSizeWholeRatios(css: int)
    requires css >= 1
    ensures BackingSize(css, EffectiveDpr(0.0)) == css
    ensures BackingSize(css, 2.0) == 2 * css
  {
    RoundShift(0.0, css);
    RoundShift(0.0, 2 * css);
  }

  /** A larger logical size never gets a smaller backing store. */
  lemma BackingSizeMonotone(css1: int, css2: int, dpr: real)
    requires css1 <= css2 && dpr >= 0.0
    ensures BackingSize(css1, dpr) <= BackingSize(css2, dpr)
  {
    assert css1 as real * dpr <= css2 as real * dpr by {
      assert css2 as real * dpr - css1 as real * dpr == (css2 - css1) as real * dpr;
    }
    RoundMonotone(css1 as real * dpr, css2 as real * dpr);
  }
}
